=== FILE: README.md ===
# pwmcmd bytecode assembler

`pwmcmd` (src/pwmcmd.c) is a small EV3 utility. It turns command-line tokens
into motor-control bytecodes and sends them to the PWM device. The tokens are:

- `0x..`: a raw byte;
- `start` and `stop`;
- `Pnmm`: set the power of a motor;
- `On`, `Fn` and `Bn`: turn a motor on, or off with float or with brake;
- `Dnd`: set a motor's direction;
- `Wnnn`: wait;
- `S`: send.

The bytes collect in a 16-byte buffer, `bytecode` with its length
`bytecode_len`. `dump_bytecodes` flushes that buffer to the device with a
single write. The buffer is flushed before every wait, at every `S` and once
more when the loop ends, which may be before the last token when the buffer
fills. A refused token or a failed write jumps to the
exit path: the device is closed, bytes still buffered are never sent, and
the exit status is failure.

The model has five modules:

- `Options`: the `Option` type.
- `Scanf`: the two `sscanf` conversions the loop uses, `%x` into an
  `unsigned int` and `%d` into an `int`, as pure functions. They follow
  glibc's conventions for a 32-bit `long`, since the EV3 is 32-bit ARM.
  Each comes with its printing inverse.
- `Bytecode`: what the loop body does with one token, written as a pure
  decoder. The branches are tried in the source's order, and every error
  the source reports is a case. A token is a sequence of characters, each
  standing for one byte of the argument. Beside it is an independent reference: the
  command language as the usage text documents it (`Command`, `Text`),
  together with the protocol table (`Meaning`). A round-trip lemma
  connects the two.
- `Session`: the command loop as a state machine over values. The state is
  the buffer, the number of write requests so far, and the trace of device
  events (write with its reply, sleep, close). The device's replies are an
  input. The machine takes a `Guard` that says where capacity is checked.
  `LoopGuard` is the source as written. `RoomGuard` also refuses a command
  that would not fit. The lemmas cover conservation of bytes, success,
  capacity, the overflow as written, and a worked session.
- `PwmCmd`: the program in place.
  - `Device` is the opened device.
  - `Assembler` holds the 16-byte `array` and its length, fills it with
    `Put`, and flushes it with `DumpBytecodes`.
  - `ProcessCommands` is the `for` loop of `main` with its final flush.
  - `Execute` is `main` from the "no commands" test to `close`.

  Every `Assembler` method and `Execute` is proved against the `Session`
  function it implements. `Device`'s methods stand for the environment and
  only record what the device sees.

## Model

| member | source | states |
|---|---|---|
| Scanf.ScanHex | src/pwmcmd.c:217 | a successful `%x` conversion yields a value that fits an `unsigned int` |
| Scanf.ScanHexText | src/pwmcmd.c:217-227 | reading back the two hex digits of any byte gives that byte |
| Scanf.ScanDecimal | src/pwmcmd.c:242 | a successful `%d` conversion yields a value within `INT_MIN..INT_MAX` |
| Scanf.ScanDecimalText | src/pwmcmd.c:333 | reading back the decimal text of any number up to `INT_MAX` gives that number |
| Scanf.ScanDecimalPrefix | src/pwmcmd.c:242 | `%d` reads the digits of any number up to `INT_MAX` and ignores whatever non-digit text follows them |
| Scanf.ScanDecimalNeg | src/pwmcmd.c:333 | after a minus sign, `%d` yields the negated number, down to `INT_MIN`, and ignores the text after the digits |
| Scanf.ScanHexPrefix | src/pwmcmd.c:217 | `%x` reads any run of hexadecimal digits, of either case and any length, saturating at 0xFFFFFFFF, and ignores text after it that starts with neither a hexadecimal digit nor `x` or `X` |
| Bytecode.MotorMask | src/pwmcmd.c:250-256 | a mask exists exactly for the letters A to D, and it is one of 1, 2, 4 or 8: a single bit |
| Bytecode.Decode | src/pwmcmd.c:213-365 | a token appends between one and three bytes, and a wait it accepts lies in 1..1000000 ms |
| Bytecode.HexByte | src/pwmcmd.c:213-227 | `0x..` appends the byte exactly when the conversion succeeds with a value ≤ 255; otherwise it is refused as a bad hex byte or as out of range |
| Bytecode.PowerCommand | src/pwmcmd.c:237-261 | `Pnmm` appends `A4 mask power` exactly when the power parses, lies in 0..100 and the motor is A–D. Otherwise it is refused with the first failing check's error: a bad power setting, a power out of range, or a bad motor with that letter (for tokens whose characters are single bytes; see "Left out") |
| Bytecode.WaitCommand | src/pwmcmd.c:329-341 | `Wnnn` waits exactly when the time parses and lies in 1..1000000, with that time; otherwise it is refused as a bad or a daft wait time |
| Bytecode.MotorCommand | src/pwmcmd.c:262-328 | a motor command appends opcode, mask and operand exactly when the second character is A–D; otherwise it is refused with that character |
| Bytecode.MotorMaskOfLetter | src/pwmcmd.c:256 | the shifted mask of each motor letter is the one in the protocol table |
| Bytecode.DecodeText | src/pwmcmd.c:213-365 | every well-formed command, written as the usage text describes it, decodes to its protocol meaning (round trip) |
| Bytecode.HexToken | src/pwmcmd.c:213 | a token starting with `0x` is decided by the hex branch alone, before any other |
| Bytecode.SendToken | src/pwmcmd.c:357-364 | any token starting with `S` only flushes |
| Bytecode.BadMotorRefused | src/pwmcmd.c:266-319 | `O`, `F`, `B` and `D` with a letter outside A–D are refused with that letter |
| Bytecode.UnknownTokenIgnored | src/pwmcmd.c:365 | a token that starts no branch is skipped without effect |
| Bytecode.HexTokenByte | src/pwmcmd.c:213-227 | `0x` followed by hex digits of either case and any length with a value ≤ 255, then text that starts with neither a hexadecimal digit nor `x` or `X`, appends exactly that one byte (`0xa4`, `0x3`) |
| Bytecode.HexTokenValue | src/pwmcmd.c:213-227 | `0x` followed by text whose `%x` value is at most 255 appends that byte |
| Bytecode.NegativePowerRefused | src/pwmcmd.c:242-249 | `P`, any letter, then a negative number down to `INT_MIN`, followed by text that does not start with a digit, is refused as a power out of range with that negative value |
| Bytecode.PowerOutOfRange | src/pwmcmd.c:242-249 | any `P` token whose power parses to a value outside 0..100 (`PA101`, `PZ200`, `PA-5`) is refused as a power out of range with that value, before the motor letter is checked |
| Bytecode.NonPositiveWaitRefused | src/pwmcmd.c:333-341 | `W-` followed by a number is refused as a wait out of range with the value zero or negative |
| Bytecode.WaitOutOfRange | src/pwmcmd.c:333-341 | any `W` token whose time parses to a value outside 1..1000000 (`W0`, `W2000000`, `W-1`) is refused as a wait out of range with that value |
| Session.Flush | src/pwmcmd.c:97-121 | an empty buffer means no write. Otherwise there is exactly one write request of the whole buffer. It succeeds exactly when the device accepts every byte, and only then is the buffer emptied. A negative reply is a write error; any other count is a short write |
| Session.Step | src/pwmcmd.c:213-365 | one iteration of the loop body. A refused token leaves the state unchanged and aborts with its error. An ignored token changes nothing. A command's bytes are appended and the loop goes on, except that with the room check a command that does not fit halts the loop with nothing appended; only that case halts. A send is exactly a flush and goes on exactly when the flush succeeds. Device events are only appended. `Session.StepConserves` and `Session.WaitFlushesThenSleeps` state the rest |
| Session.Finish | src/pwmcmd.c:367-371 | the final flush: the run succeeds exactly when the buffer is empty or the device accepts all of it, and then nothing is left buffered. A failure is a write error or a short write, never a token error. The token count is passed through |
| Session.Run | src/pwmcmd.c:212-371 | the room-checked loop over the decoded tokens, then the final flush. No more tokens take effect than were given, and device events are only appended. A success leaves the buffer empty. From a buffer within 16 bytes, the buffer and every write request stay within 16 bytes |
| Session.Loop | src/pwmcmd.c:212-371 | no more tokens take effect than were given, and device events are only ever appended |
| Session.RunAsWritten | src/pwmcmd.c:212 | the loop as written, from an empty buffer, yields the room-checked run exactly when none of its write requests exceeds 16 bytes |
| Session.FlushConserves | src/pwmcmd.c:97-121 | a flush moves the buffer to the device or leaves it in place; no byte is lost or repeated |
| Session.StepConserves | src/pwmcmd.c:213-365 | a loop iteration adds exactly the token's bytes to what is accepted plus what is buffered; a halted one changes nothing |
| Session.PauseConserves | src/pwmcmd.c:343-354 | a wait neither creates nor loses bytes |
| Session.Conservation | src/pwmcmd.c:212-371 | for every run and every device behaviour: accepted bytes plus the buffer equal their earlier values plus the bytes of the tokens that took effect, in order |
| Session.ProceedConserves | src/pwmcmd.c:212-366 | the inductive step of conservation over one loop iteration |
| Session.SuccessDeliversEverything | src/pwmcmd.c:366-371 | after a successful run, the device has accepted exactly the bytes of the tokens that took effect, in order, and nothing is left buffered |
| Session.SuccessEmptiesBuffer | src/pwmcmd.c:367-371 | a successful run ends with an empty buffer |
| Session.FullBufferStops | src/pwmcmd.c:212 | once the buffer holds 16 bytes, no further token is looked at, and the final flush still runs |
| Session.WaitFlushesThenSleeps | src/pwmcmd.c:343-354 | a wait flushes first. It sleeps exactly when the flush succeeded, and only after it; otherwise the flush's failure aborts the run |
| Session.RoomGuardWithinCapacity | src/pwmcmd.c:212-327 | with the room check, the buffer never holds more than 16 bytes and no write request is longer |
| Session.AsWrittenOverflowsAt | src/pwmcmd.c:212-327 | as written, a command that does not fit is appended anyway and the device is asked for more than 16 bytes; the room check stops before it instead |
| Session.AsWrittenOverflows | src/pwmcmd.c:212-327 | for every device behaviour, fourteen `start` tokens then `FA` make a write request longer than the buffer |
| Session.AsWrittenAgrees | src/pwmcmd.c:212 | the as-written loop agrees with the room-checked one exactly when none of its write requests exceeds 16 bytes |
| Session.ScriptDecodes | src/pwmcmd.c:213-365 | a script in the usage syntax decodes, token by token, to the meanings of its commands |
| Session.LoopStep | src/pwmcmd.c:212-366 | with room left and a token to read, the loop is the step of that token followed by the loop over the rest, or it ends where the step halts or aborts |
| Session.LoopEnd | src/pwmcmd.c:212 | with no token left or the buffer full, the loop ends in the final flush |
| Session.LoopEmits | src/pwmcmd.c:226-327 | an iteration whose bytes fit appends them and moves on to the next token |
| Session.LoopPauses | src/pwmcmd.c:343-354 | an iteration with a wait and an accepting device writes the buffer, sleeps and moves on |
| Session.LoopSendsLast | src/pwmcmd.c:357-371 | a final `S` the device accepts leaves nothing for the final flush, and the run succeeds |
| Session.ExampleSession | src/pwmcmd.c:212-371 | `start PA30 OA W500 PA50 W200 FA stop S` against an accepting device makes three writes (6, 3 and 4 bytes) around two sleeps and succeeds |
| PwmCmd.Device.constructor | src/pwmcmd.c:204 | a freshly opened device has seen no request |
| PwmCmd.Device.Write | src/pwmcmd.c:109 | one write request is recorded with the device's reply, and the reply is returned |
| PwmCmd.Device.Sleep | src/pwmcmd.c:352 | the sleep is recorded and nothing else changes |
| PwmCmd.Device.Close | src/pwmcmd.c:377 | the close is recorded and nothing else changes |
| PwmCmd.Assembler.constructor | src/pwmcmd.c:138 | the buffer starts empty, over a 16-byte array |
| PwmCmd.Assembler.Put | src/pwmcmd.c:227 | `bytecode[bytecode_len++] = b` appends `b` to the buffer's contents |
| PwmCmd.Assembler.DumpBytecodes | src/pwmcmd.c:97-121 | the in-place flush has exactly the effect and result of `Session.Flush` |
| PwmCmd.Assembler.ProcessToken | src/pwmcmd.c:213-365 | one loop iteration in place is the `Session` step of the decoded token |
| PwmCmd.Assembler.HexCommand | src/pwmcmd.c:213-228 | the `0x..` branch in place is the step of `Bytecode.HexByte` |
| PwmCmd.Assembler.PowerCommand | src/pwmcmd.c:237-261 | the `P` branch in place is the step of `Bytecode.PowerCommand` |
| PwmCmd.Assembler.WaitCommand | src/pwmcmd.c:329-356 | the `W` branch in place is the step of `Bytecode.WaitCommand` |
| PwmCmd.Assembler.Pause | src/pwmcmd.c:343-354 | the flush then sleep of a wait in place is the `Session` step of a pause |
| PwmCmd.Assembler.SendCommand | src/pwmcmd.c:357-364 | the `S` branch in place is the `Session` step of a send |
| PwmCmd.Assembler.MotorCommand | src/pwmcmd.c:262-328 | the `O`/`F`/`B`/`D` branches in place are the step of `Bytecode.MotorCommand`, with the room check |
| PwmCmd.Assembler.ProcessNext | src/pwmcmd.c:212-366 | iteration i in place leaves exactly the `Session` loop over the remaining tokens, counting the token it read |
| PwmCmd.Assembler.ProcessCommands | src/pwmcmd.c:212-371 | the loop and final flush in place produce the buffer, device trace, status and token count of `Session.Run` |
| PwmCmd.Execute | src/pwmcmd.c:196-382 | no command tokens means exit status 0 and no device activity. Otherwise the exit status is 0 exactly when the run succeeds, and the device sees the run's events followed by one close |

## Left out

- Option parsing is not modelled (src/pwmcmd.c:143-194): `-d`, `-v`, `-h`, their long forms, and unknown options. Neither are `usage` and `progname`, nor the verbose and error messages (`prog_info`, `prog_error`, `prog_warning`, `strerror`). They only print. `support.c` is not part of this model.
- Opening the device (src/pwmcmd.c:204-208) is not modelled. `Execute` receives a device that is already open, so the exit when `open` fails is not covered.
- The short-sleep warning when `usleep` fails (src/pwmcmd.c:352-354) is not modelled. It only prints; the sleep is recorded as requested.
- The device's replies are an input function of the write's index and its bytes. Timing, `errno` and the actual motor behaviour are not modelled.
- Scanf.ScanHex: the contract states only the range. The conversion follows glibc's `strtoul` on a 32-bit `long`: white space is skipped, and there is an optional sign and an optional `0x` prefix. A negation is taken modulo 2^32, and magnitudes saturate to 0xFFFFFFFF. Other C libraries are not modelled. The partner properties are `Scanf.ScanHexText` and `Scanf.ScanHexPrefix`.
- Scanf.ScanDecimal: the contract states only the range. The conversion follows glibc's `strtol` on a 32-bit `long`, saturating at `INT_MIN`/`INT_MAX`. On a 64-bit `long` the result would wrap when it is stored into `int`. The partner properties are `Scanf.ScanDecimalText`, `Scanf.ScanDecimalPrefix` and `Scanf.ScanDecimalNeg`.
- Bytecode.PowerCommand: for a bare `P`, the source parses the text two bytes past the token's start, which is beyond its terminating NUL. The model parses an empty text there, so it reports a bad power setting. The source may instead report whatever the following memory holds, for example a range or motor error. In every case the token is refused and the run aborts.
- Bytecode.PowerCommand: tokens are sequences of characters, each standing for one byte, while the source indexes the bytes of `argv`. A character outside ASCII is several bytes in UTF-8. With such a second character (`Pé50`), the model parses the text after that character and refuses the token as a bad motor or a power out of range. The source parses from inside the character's encoding and reports a bad power setting. The run aborts either way, with the same exit status and device trace.
- Tokens are NUL-free, as command-line arguments are. `strcmp`/`strncmp` and character reads past the end behave as on the C string.
- Session.Loop: the contract states only bounds. What the loop does is stated by `Session.Conservation`, `Session.SuccessDeliversEverything`, `Session.RoomGuardWithinCapacity`, `Session.AsWrittenAgrees` and the in-place `PwmCmd.Assembler.ProcessCommands`.
- Session.RunAsWritten: the bytes the source stores past the end of `bytecode` are kept in the value-level buffer, as if the array were larger. In C those stores are undefined behaviour: they may overwrite `bytecode_len` or other globals. That corruption is not modelled.
- The in-place classes use the corrected room check (`PwmCmd.Assembler.MotorCommand`): the 16-byte `array` cannot be written past its end. The as-written overflow is modelled only at the value level, in `Session`.

## Findings

| source | as written | input that shows it | evidently intended | confidence | as-written member | corrected member |
|---|---|---|---|---|---|---|
| src/pwmcmd.c:212-327 | The only capacity check is `bytecode_len < MAX_BYTECODE_LEN`, made before each token. A `P`, `F`, `B` or `D` command then appends three bytes, and `O` two, without checking that they fit. With 14 or 15 bytes buffered, the stores run past the 16-byte `bytecode` array, and the final flush asks the device to take up to 18 bytes. | `start` fourteen times, then `FA`: 17 bytes. | The buffer never exceeds its 16 bytes. The loop stops before a command that does not fit, as it does when the buffer is full, and the final flush still runs. | high; not executed | Session.AsWrittenOverflows | Session.RoomGuardWithinCapacity |

`Session` models both loops: `Session.RunAsWritten` is the loop as written, and `Session.Run` is the loop with the room check, which the in-place program (`PwmCmd.Assembler.ProcessCommands`, `PwmCmd.Execute`) runs. The intent is read from the guard at src/pwmcmd.c:212, which stops the loop once the 16-byte buffer is full. `Session.AsWrittenAgrees` shows that the two loops differ only on inputs where the loop as written overflows.

=== FILE: bytecode.dfy ===
/**
 * Translation of one command-line token into what the command loop of
 * pwmcmd does with it: bytes to append to the bytecode buffer, a flush, a
 * flush followed by a wait, nothing, or a validation error.
 *
 * Tokens are C strings without their terminating NUL: reading at or past the
 * end gives '\0', and the text from a position past the end is empty.
 */
module Bytecode {
  import opened Options
  import opened Scanf

  /** Why a token is refused; each kind is one `prog_error` of the loop. */
  datatype Error =
    | BadHex(token: string)          // "bad hex byte [..]"
    | HexRange(token: string)        // "hex value [..] out of range (0-255)"
    | BadPower(text: string)         // "bad power setting [..]"
    | PowerRange(power: int)         // "bad power value (..), must be 0-100"
    | BadMotor(letter: char)         // "bad motor '..', must be A-D"
    | BadWait(text: string)          // "bad wait time [..]"
    | WaitRange(ms: int)             // "wait time of .. milliseconds is daft"

  /** What the loop does with one token. */
  datatype Action =
    | Emit(bytes: seq<bv8>)          // append these bytes to the buffer
    | Send                           // flush the buffer (`S`)
    | Pause(ms: int)                 // flush the buffer, then sleep (`W`)
    | Ignore                         // no branch matches
    | Reject(err: Error)             // validation failure: abort the run

  const MaxPower := 100
  const MaxWait := 1000000

  /** The character at position i of a C string, '\0' at or past its end. */
  function At(t: string, i: nat): char {
    if i < |t| then t[i] else '\0'
  }

  /** The C string starting at position i, empty past the end. */
  function From(t: string, i: nat): string {
    if i <= |t| then t[i..] else []
  }

  /** The motor bit mask `1 << (letter - 'A')`, for the letters A to D only. */
  function MotorMask(c: char): (r: Option<bv8>)
    ensures r.Some? <==> 'A' <= c <= 'D'
    ensures r.Some? ==> r.value in {0x01, 0x02, 0x04, 0x08}
    ensures r.Some? ==> r.value != 0 && r.value & (r.value - 1) == 0
  {
    if c < 'A' || c > 'D' then None
    else Some((1 as bv8) << (c as int - 'A' as int))
  }

  /**
   * The branches of the command loop, tried in the source's order: the `0x`
   * prefix, the exact words `start` and `stop`, then the first character.
   */
  function Decode(t: string): (a: Action)
    ensures a.Emit? ==> 1 <= |a.bytes| <= 3
    ensures a.Pause? ==> 0 < a.ms <= MaxWait
  {
    if IsHexToken(t) then HexByte(t)
    else if t == "start" then Emit([0x03])
    else if t == "stop" then Emit([0x02])
    else if At(t, 0) == 'P' then PowerCommand(t)
    else if At(t, 0) == 'O' then MotorCommand(t, [0xA6], [])
    else if At(t, 0) == 'F' then MotorCommand(t, [0xA3], [0x00])
    else if At(t, 0) == 'B' then MotorCommand(t, [0xA3], [0x01])
    else if At(t, 0) == 'D' then MotorCommand(t, [0xA7], [if At(t, 2) == '1' then 0x01 else 0xFF])
    else if At(t, 0) == 'W' then WaitCommand(t)
    else if At(t, 0) == 'S' then Send
    else Ignore
  }

  /** `strncmp(t, "0x", 2) == 0`. */
  predicate IsHexToken(t: string) {
    |t| >= 2 && t[0] == '0' && t[1] == 'x'
  }

  /** A raw byte: the hexadecimal number after `0x`, at most 255. */
  function HexByte(t: string): (a: Action)
    requires IsHexToken(t)
    ensures a.Emit? <==> ScanHex(t[2..]).Some? && ScanHex(t[2..]).value <= 255
    ensures a.Emit? ==> a.bytes == [ScanHex(t[2..]).value as bv8]
    ensures !a.Emit? ==> a == Reject(if ScanHex(t[2..]).None? then BadHex(t) else HexRange(t))
  {
    match ScanHex(t[2..])
    case None => Reject(BadHex(t))
    case Some(v) => if v > 255 then Reject(HexRange(t)) else Emit([v as bv8])
  }

  /** `Pnmm`: the power from the third character on, checked before the motor letter. */
  function PowerCommand(t: string): (a: Action)
    ensures a.Emit? <==>
              ScanDecimal(From(t, 2)).Some? && 0 <= ScanDecimal(From(t, 2)).value <= MaxPower
              && 'A' <= At(t, 1) <= 'D'
    ensures a.Emit? ==>
              a.bytes == [0xA4, MotorMask(At(t, 1)).value, ScanDecimal(From(t, 2)).value as bv8]
    ensures ScanDecimal(From(t, 2)).None? ==> a == Reject(BadPower(From(t, 2)))
    ensures ScanDecimal(From(t, 2)).Some? && !(0 <= ScanDecimal(From(t, 2)).value <= MaxPower) ==>
              a == Reject(PowerRange(ScanDecimal(From(t, 2)).value))
    ensures (ScanDecimal(From(t, 2)).Some? && 0 <= ScanDecimal(From(t, 2)).value <= MaxPower
             && !('A' <= At(t, 1) <= 'D')) ==> a == Reject(BadMotor(At(t, 1)))
    ensures !a.Emit? ==> a.Reject?
  {
    match ScanDecimal(From(t, 2))
    case None => Reject(BadPower(From(t, 2)))
    case Some(pwr) =>
      if pwr < 0 || pwr > MaxPower then Reject(PowerRange(pwr))
      else MotorCommand(t, [0xA4], [pwr as bv8])
  }

  /** `Wnnn`: a wait of 1 to 1000000 milliseconds. */
  function WaitCommand(t: string): (a: Action)
    ensures a.Pause? <==> ScanDecimal(From(t, 1)).Some? && 0 < ScanDecimal(From(t, 1)).value <= MaxWait
    ensures a.Pause? ==> a.ms == ScanDecimal(From(t, 1)).value
    ensures ScanDecimal(From(t, 1)).None? ==> a == Reject(BadWait(From(t, 1)))
    ensures ScanDecimal(From(t, 1)).Some? && !a.Pause? ==> a == Reject(WaitRange(ScanDecimal(From(t, 1)).value))
  {
    match ScanDecimal(From(t, 1))
    case None => Reject(BadWait(From(t, 1)))
    case Some(ms) => if ms <= 0 || ms > MaxWait then Reject(WaitRange(ms)) else Pause(ms)
  }

  /** A motor command: opcode, the mask of the motor named by the second character, operand. */
  function MotorCommand(t: string, opcode: seq<bv8>, operand: seq<bv8>): (a: Action)
    ensures a.Emit? <==> 'A' <= At(t, 1) <= 'D'
    ensures a.Emit? ==> a.bytes == opcode + [MotorMask(At(t, 1)).value] + operand
    ensures a.Reject? <==> !a.Emit?
    ensures a.Reject? ==> a.err == BadMotor(At(t, 1))
  {
    match MotorMask(At(t, 1))
    case None => Reject(BadMotor(At(t, 1)))
    case Some(mask) => Emit(opcode + [mask] + operand)
  }

  // ---- The command language as documented, independent of the parser ----

  datatype Motor = A | B | C | D

  /** A command as the usage text describes it. */
  datatype Command =
    | Raw(byte: bv8)
    | Start
    | Stop
    | Power(motor: Motor, power: int)
    | On(motor: Motor)
    | Float(motor: Motor)
    | Brake(motor: Motor)
    | Direction(motor: Motor, forward: bool)
    | Wait(ms: int)
    | SendBuffer

  predicate WellFormed(c: Command) {
    match c
    case Power(_, p) => 0 <= p <= MaxPower
    case Wait(ms) => 0 < ms <= MaxWait
    case _ => true
  }

  function Letter(m: Motor): char {
    match m
    case A => 'A' case B => 'B' case C => 'C' case D => 'D'
  }

  /** The motor selector bits: A is bit 0 up to D, bit 3. */
  function Mask(m: Motor): bv8 {
    match m
    case A => 0x01 case B => 0x02 case C => 0x04 case D => 0x08
  }

  /** How a command is written on the command line (`Pnmm`, `On`, `Dnd`, `Wnnn`, ...). */
  function Text(c: Command): string
    requires WellFormed(c)
  {
    match c
    case Raw(b) => "0x" + HexText(b as nat)
    case Start => "start"
    case Stop => "stop"
    case Power(m, p) => ['P', Letter(m)] + DecimalText(p)
    case On(m) => ['O', Letter(m)]
    case Float(m) => ['F', Letter(m)]
    case Brake(m) => ['B', Letter(m)]
    case Direction(m, fwd) => ['D', Letter(m)] + (if fwd then "1" else "-1")
    case Wait(ms) => ['W'] + DecimalText(ms)
    case SendBuffer => "S"
  }

  /** The protocol table: what each command means for the device. */
  function Meaning(c: Command): Action
    requires WellFormed(c)
  {
    match c
    case Raw(b) => Emit([b])
    case Start => Emit([0x03])
    case Stop => Emit([0x02])
    case Power(m, p) => Emit([0xA4, Mask(m), p as bv8])
    case On(m) => Emit([0xA6, Mask(m)])
    case Float(m) => Emit([0xA3, Mask(m), 0x00])
    case Brake(m) => Emit([0xA3, Mask(m), 0x01])
    case Direction(m, fwd) => Emit([0xA7, Mask(m), if fwd then 0x01 else 0xFF])
    case Wait(ms) => Pause(ms)
    case SendBuffer => Send
  }

  /** The mask computed from the letter is the one in the table, for every motor. */
  lemma MotorMaskOfLetter(m: Motor)
    ensures MotorMask(Letter(m)) == Some(Mask(m))
  {
  }

  /** Every well-formed command, written out, is parsed back into its documented meaning. */
  lemma DecodeText(c: Command)
    requires WellFormed(c)
    ensures Decode(Text(c)) == Meaning(c)
  {
    match c
    case Raw(b) => DecodeRaw(b);
    case Start =>
    case Stop =>
    case Power(m, p) => DecodePower(m, p);
    case On(m) => DecodeMotorText('O', m, [], [0xA6], []);
    case Float(m) => DecodeMotorText('F', m, [], [0xA3], [0x00]);
    case Brake(m) => DecodeMotorText('B', m, [], [0xA3], [0x01]);
    case Direction(m, fwd) =>
      var t := Text(c);
      assert At(t, 2) == (if fwd then '1' else '-');
      DecodeMotorText('D', m, if fwd then "1" else "-1", [0xA7], [if fwd then 0x01 else 0xFF]);
    case Wait(ms) => DecodeWait(ms);
    case SendBuffer =>
  }

  lemma DecodeRaw(b: bv8)
    ensures Decode(Text(Raw(b))) == Emit([b])
  {
    var t := Text(Raw(b));
    assert IsHexToken(t) && t[2..] == HexText(b as nat);
    ScanHexText(b as nat);
  }

  lemma DecodePower(m: Motor, p: int)
    requires 0 <= p <= MaxPower
    ensures Decode(Text(Power(m, p))) == Emit([0xA4, Mask(m), p as bv8])
  {
    var t := Text(Power(m, p));
    assert At(t, 0) == 'P' && At(t, 1) == Letter(m) && !IsHexToken(t);
    assert t != "start" && t != "stop";
    assert From(t, 2) == DecimalText(p);
    ScanDecimalText(p);
    MotorMaskOfLetter(m);
  }

  lemma DecodeWait(ms: int)
    requires 0 < ms <= MaxWait
    ensures Decode(Text(Wait(ms))) == Pause(ms)
  {
    var t := ['W'] + DecimalText(ms);
    assert At(t, 0) == 'W' && !IsHexToken(t);
    assert t != "start" && t != "stop";
    assert Decode(t) == WaitCommand(t);
    assert From(t, 1) == DecimalText(ms);
    ScanDecimalText(ms);
  }

  /** A motor command written as its letter, the motor and a suffix. */
  lemma DecodeMotorText(k: char, m: Motor, suffix: string, opcode: seq<bv8>, operand: seq<bv8>)
    requires k in {'O', 'F', 'B', 'D'}
    requires k == 'O' ==> opcode == [0xA6] && operand == []
    requires k == 'F' ==> opcode == [0xA3] && operand == [0x00]
    requires k == 'B' ==> opcode == [0xA3] && operand == [0x01]
    requires k == 'D' ==> opcode == [0xA7] && operand == [if At([k, Letter(m)] + suffix, 2) == '1' then 0x01 else 0xFF]
    ensures Decode([k, Letter(m)] + suffix) == Emit(opcode + [Mask(m)] + operand)
  {
    var t := [k, Letter(m)] + suffix;
    assert At(t, 0) == k && At(t, 1) == Letter(m) && !IsHexToken(t);
    assert t != "start" && t != "stop";
    MotorMaskOfLetter(m);
  }

  /** A `0x` token is decided by its hexadecimal digits alone, before any other branch. */
  lemma HexToken(t: string)
    requires |t| >= 2 && t[..2] == "0x"
    ensures Decode(t) == HexByte(t)
  {
    assert t[0] == t[..2][0] && t[1] == t[..2][1];
  }

  /** Every token that begins with `S` only flushes. */
  lemma SendToken(t: string)
    requires At(t, 0) == 'S'
    ensures Decode(t) == Send
  {
  }

  /** A motor command naming a letter outside A to D is refused with that letter. */
  lemma BadMotorRefused(t: string)
    requires At(t, 0) in {'O', 'F', 'B', 'D'} && !('A' <= At(t, 1) <= 'D')
    ensures Decode(t) == Reject(BadMotor(At(t, 1)))
  {
  }

  /** Tokens whose first character starts no branch are skipped. */
  lemma UnknownTokenIgnored(t: string)
    requires !IsHexToken(t) && t != "start" && t != "stop"
    requires At(t, 0) !in {'P', 'O', 'F', 'B', 'D', 'W', 'S'}
    ensures Decode(t) == Ignore
  {
  }

  /**
   * A raw byte may be written with any number of digits, of either case, and
   * be followed by text that starts with neither a hexadecimal digit nor
   * `x` or `X`: `0xa4` and `0x3` each append one byte.
   */
  lemma HexTokenByte(d: string, rest: string)
    requires d != [] && forall i :: 0 <= i < |d| ==> IsHexDigit(d[i])
    requires HexValue(d) <= 255
    requires rest == [] || (!IsHexDigit(rest[0]) && rest[0] != 'x' && rest[0] != 'X')
    ensures Decode("0x" + d + rest) == Emit([HexValue(d) as bv8])
  {
    var v := HexValue(d);
    ScanHexPrefix(d, rest);
    HexTokenSplit(d, rest, v);
  }

  lemma HexTokenSplit(d: string, rest: string, v: nat)
    requires ScanHex(d + rest) == Some(v) && v <= 255
    ensures Decode("0x" + d + rest) == Emit([v as bv8])
  {
    HexTokenValue("0x" + (d + rest), d + rest, v);
    assert "0x" + d + rest == "0x" + (d + rest);
  }

  /** `0x` followed by text whose `%x` value is a byte appends that byte. */
  lemma HexTokenValue(t: string, u: string, v: nat)
    requires t == "0x" + u && ScanHex(u) == Some(v) && v <= 255
    ensures Decode(t) == Emit([v as bv8])
  {
    assert t[..2] == "0x" && t[2..] == u;
    HexToken(t);
  }

  /** A negative power, down to `INT_MIN`, is refused as out of range, whatever motor letter it names. */
  lemma NegativePowerRefused(c: char, n: nat, rest: string)
    requires 0 < n <= IntMax + 1 && (rest == [] || !IsDigit(rest[0]))
    ensures Decode(['P', c, '-'] + DecimalText(n) + rest) == Reject(PowerRange(0 - (n as int)))
  {
    ScanDecimalNeg(n, rest);
    NegativePowerSplit(c, DecimalText(n), rest, 0 - (n as int));
  }

  lemma NegativePowerSplit(c: char, x: string, rest: string, p: int)
    requires ScanDecimal("-" + x + rest) == Some(p) && p < 0
    ensures Decode(['P', c, '-'] + x + rest) == Reject(PowerRange(p))
  {
    var t := ['P', c, '-'] + x + rest;
    assert t[0] == 'P' && t[2..] == "-" + x + rest;
    PowerOutOfRange(t, p);
  }

  /** A power outside 0..100 is refused before the motor letter is looked at. */
  lemma PowerOutOfRange(t: string, p: int)
    requires At(t, 0) == 'P' && ScanDecimal(From(t, 2)) == Some(p) && (p < 0 || p > MaxPower)
    ensures Decode(t) == Reject(PowerRange(p))
  {
    PowerToken(t);
  }

  /** A wait of zero or a negative number of milliseconds is refused as out of range. */
  lemma NonPositiveWaitRefused(n: nat, rest: string)
    requires n <= IntMax + 1 && (rest == [] || !IsDigit(rest[0]))
    ensures Decode(['W', '-'] + DecimalText(n) + rest) == Reject(WaitRange(0 - (n as int)))
  {
    ScanDecimalNeg(n, rest);
    NegativeWaitSplit(DecimalText(n), rest, 0 - (n as int));
  }

  lemma NegativeWaitSplit(x: string, rest: string, ms: int)
    requires ScanDecimal("-" + x + rest) == Some(ms) && ms <= 0
    ensures Decode(['W', '-'] + x + rest) == Reject(WaitRange(ms))
  {
    var t := ['W', '-'] + x + rest;
    assert t[0] == 'W' && t[1..] == "-" + x + rest;
    WaitOutOfRange(t, ms);
  }

  /** A wait time outside 1..1000000 is refused as out of range. */
  lemma WaitOutOfRange(t: string, ms: int)
    requires At(t, 0) == 'W' && ScanDecimal(From(t, 1)) == Some(ms) && (ms <= 0 || ms > MaxWait)
    ensures Decode(t) == Reject(WaitRange(ms))
  {
    WaitToken(t);
  }

  /** Every token that begins with `P` is a power command. */
  lemma PowerToken(t: string)
    requires At(t, 0) == 'P'
    ensures Decode(t) == PowerCommand(t)
  {
  }

  /** Every token that begins with `W` is a wait. */
  lemma WaitToken(t: string)
    requires At(t, 0) == 'W'
    ensures Decode(t) == WaitCommand(t)
  {
  }
}

=== FILE: options.dfy ===
/** An optional value: the result of a conversion that may fail. */
module Options {
  datatype Option<+T> = None | Some(value: T)
}

=== FILE: pwmcmd.dfy ===
/**
 * The program state of pwmcmd and its command loop, in place: the global
 * 16-byte `bytecode` array with its length `bytecode_len`, filled byte by
 * byte, flushed by `dump_bytecodes`, and the device it writes to.
 *
 * Every `Assembler` method and `Execute` is proved against the value-level
 * machine of module Session, with the room check that keeps the buffer
 * within its 16 bytes. `Device`'s methods stand for the environment and
 * only record what the device sees.
 */
module PwmCmd {
  import opened Options
  import opened Scanf
  import opened Bytecode
  import opened Session

  /**
   * The opened PWM device. Its answers to write requests come from the
   * environment (`answer`); `trace` records every request it receives.
   */
  class Device {
    const answer: Replies
    var writes: nat
    ghost var trace: seq<Event>

    constructor (answer: Replies)
      ensures this.answer == answer && writes == 0 && trace == []
    {
      this.answer := answer;
      writes := 0;
      trace := [];
    }

    /** write(fd, bytes, |bytes|): the count accepted, or a negative error. */
    method Write(bytes: seq<bv8>) returns (n: int)
      modifies this
      ensures n == answer(old(writes), bytes)
      ensures writes == old(writes) + 1 && trace == old(trace) + [Event.Write(bytes, n)]
    {
      n := answer(writes, bytes);
      writes := writes + 1;
      trace := trace + [Event.Write(bytes, n)];
    }

    /** usleep(ms * 1000); a short sleep is only a warning, so nothing is returned. */
    method Sleep(ms: int)
      modifies this
      ensures writes == old(writes) && trace == old(trace) + [Event.Sleep(ms)]
    {
      trace := trace + [Event.Sleep(ms)];
    }

    /** close(dev_fd). */
    method Close()
      modifies this
      ensures writes == old(writes) && trace == old(trace) + [Event.Close]
    {
      trace := trace + [Event.Close];
    }
  }

  /** The bytecode buffer and the device it is flushed to. */
  class Assembler {
    const bytecode: array<bv8>
    var bytecodeLen: nat
    const dev: Device

    ghost predicate Valid()
      reads this
    {
      bytecode.Length == MaxBytecodeLen && bytecodeLen <= MaxBytecodeLen
    }

    /** The value-level machine this object stands for. */
    ghost function State(): Machine
      reads this, bytecode, dev
      requires Valid()
    {
      Machine(bytecode[..bytecodeLen], dev.writes, dev.trace)
    }

    constructor (dev: Device)
      ensures Valid() && fresh(bytecode) && this.dev == dev
      ensures State() == Machine([], dev.writes, dev.trace)
    {
      bytecode := new bv8[MaxBytecodeLen];
      bytecodeLen := 0;
      this.dev := dev;
    }

    /** bytecode[bytecode_len++] = b */
    method Put(b: bv8)
      requires Valid() && bytecodeLen < MaxBytecodeLen
      modifies this`bytecodeLen, bytecode
      ensures Valid() && bytecodeLen == old(bytecodeLen) + 1
      ensures State() == old(State()).(pending := old(State()).pending + [b])
    {
      bytecode[bytecodeLen] := b;
      bytecodeLen := bytecodeLen + 1;
    }

    /** dump_bytecodes: one write of the whole buffer, emptied only if all of it was accepted. */
    method DumpBytecodes() returns (err: Option<Failure>)
      requires Valid()
      modifies this`bytecodeLen, dev
      ensures Valid() && Flush(old(State()), dev.answer) == Flushed(State(), err)
    {
      if bytecodeLen == 0 {
        return None;
      }
      var i := dev.Write(bytecode[..bytecodeLen]);
      if i < 0 {
        return Some(WriteError(bytecodeLen));
      } else if i != bytecodeLen {
        return Some(ShortWrite(bytecodeLen, i));
      }
      bytecodeLen := 0;
      return None;
    }

    /** The body of the command loop for one token; the branches are tried in the source's order. */
    method ProcessToken(t: string) returns (next: Next)
      requires Valid() && bytecodeLen < MaxBytecodeLen
      modifies this`bytecodeLen, bytecode, dev
      ensures Valid() && Step(old(State()), Decode(t), dev.answer, RoomGuard) == Stepped(State(), next)
    {
      if |t| >= 2 && t[0] == '0' && t[1] == 'x' {
        next := HexCommand(t);
      } else if t == "start" {
        Put(0x03);
        next := Proceed;
      } else if t == "stop" {
        Put(0x02);
        next := Proceed;
      } else if At(t, 0) == 'P' {
        next := PowerCommand(t);
      } else if At(t, 0) == 'O' {
        next := MotorCommand(t, 0xA6, []);
      } else if At(t, 0) == 'F' {
        next := MotorCommand(t, 0xA3, [0x00]);
      } else if At(t, 0) == 'B' {
        next := MotorCommand(t, 0xA3, [0x01]);
      } else if At(t, 0) == 'D' {
        next := MotorCommand(t, 0xA7, [if At(t, 2) == '1' then 0x01 else 0xFF]);
      } else if At(t, 0) == 'W' {
        next := WaitCommand(t);
      } else if At(t, 0) == 'S' {
        next := SendCommand();
      } else {
        next := Proceed;
      }
    }

    /** `0x..`: the hexadecimal value must be at most 255. */
    method HexCommand(t: string) returns (next: Next)
      requires Valid() && bytecodeLen < MaxBytecodeLen && IsHexToken(t)
      modifies this`bytecodeLen, bytecode
      ensures Valid() && Step(old(State()), HexByte(t), dev.answer, RoomGuard) == Stepped(State(), next)
    {
      var v := ScanHex(t[2..]);
      if v.None? {
        return Abort(Invalid(BadHex(t)));
      } else if v.value > 255 {
        return Abort(Invalid(HexRange(t)));
      }
      Put(v.value as bv8);
      next := Proceed;
    }

    /** `Pnmm`: the power is parsed and range-checked before the motor letter. */
    method PowerCommand(t: string) returns (next: Next)
      requires Valid() && bytecodeLen < MaxBytecodeLen
      modifies this`bytecodeLen, bytecode
      ensures Valid()
      ensures Step(old(State()), Bytecode.PowerCommand(t), dev.answer, RoomGuard) == Stepped(State(), next)
    {
      var pwr := ScanDecimal(From(t, 2));
      if pwr.None? {
        return Abort(Invalid(BadPower(From(t, 2))));
      } else if pwr.value < 0 || pwr.value > MaxPower {
        return Abort(Invalid(PowerRange(pwr.value)));
      }
      next := MotorCommand(t, 0xA4, [pwr.value as bv8]);
    }

    /** `Wnnn`: validate the time, flush, and sleep only if the flush succeeded. */
    method WaitCommand(t: string) returns (next: Next)
      requires Valid()
      modifies this`bytecodeLen, dev
      ensures Valid()
      ensures Step(old(State()), Bytecode.WaitCommand(t), dev.answer, RoomGuard) == Stepped(State(), next)
    {
      var ms := ScanDecimal(From(t, 1));
      if ms.None? {
        return Abort(Invalid(BadWait(From(t, 1))));
      } else if ms.value <= 0 || ms.value > MaxWait {
        return Abort(Invalid(WaitRange(ms.value)));
      }
      next := Pause(ms.value);
    }

    /** The wait itself: flush, and sleep only if the flush succeeded. */
    method Pause(ms: int) returns (next: Next)
      requires Valid()
      modifies this`bytecodeLen, dev
      ensures Valid() && Step(old(State()), Action.Pause(ms), dev.answer, RoomGuard) == Stepped(State(), next)
    {
      var err := DumpBytecodes();
      if err.Some? {
        return Abort(err.value);
      }
      dev.Sleep(ms);
      next := Proceed;
    }

    /** `S`: flush. */
    method SendCommand() returns (next: Next)
      requires Valid()
      modifies this`bytecodeLen, dev
      ensures Valid() && Step(old(State()), Send, dev.answer, RoomGuard) == Stepped(State(), next)
    {
      var err := DumpBytecodes();
      next := if err.Some? then Abort(err.value) else Proceed;
    }

    /**
     * A motor command: check the motor letter, compute its mask, then append
     * opcode, mask and operand if they fit (the source appends without
     * checking).
     */
    method MotorCommand(t: string, opcode: bv8, operand: seq<bv8>) returns (next: Next)
      requires Valid() && bytecodeLen < MaxBytecodeLen && |operand| <= 1
      modifies this`bytecodeLen, bytecode
      ensures Valid()
      ensures Step(old(State()), Bytecode.MotorCommand(t, [opcode], operand), dev.answer, RoomGuard)
              == Stepped(State(), next)
    {
      var c := At(t, 1);
      if c < 'A' || c > 'D' {
        return Abort(Invalid(BadMotor(c)));
      }
      var mot := (1 as bv8) << (c as int - 'A' as int);
      if bytecodeLen + 2 + |operand| > MaxBytecodeLen {
        return Halt;
      }
      Put(opcode);
      Put(mot);
      if operand != [] {
        Put(operand[0]);
        assert [opcode] + [mot] + operand == [opcode, mot, operand[0]];
      }
      next := Proceed;
    }

    /** Iteration i of the command loop, and what it leaves of the loop over the remaining tokens. */
    method ProcessNext(tokens: seq<string>, i: nat, ghost acts: seq<Action>) returns (next: Next)
      requires Valid() && bytecodeLen < MaxBytecodeLen && i < |tokens| && acts == Actions(tokens)
      modifies this`bytecodeLen, bytecode, dev
      ensures Valid()
      ensures next.Proceed? ==>
                Loop(old(State()), acts[i..], dev.answer, RoomGuard)
                == var r := Loop(State(), acts[i + 1..], dev.answer, RoomGuard); r.(consumed := r.consumed + 1)
      ensures next.Halt? ==> Loop(old(State()), acts[i..], dev.answer, RoomGuard) == Finish(State(), dev.answer, 0)
      ensures next.Abort? ==> Loop(old(State()), acts[i..], dev.answer, RoomGuard) == Final(State(), Failed(next.why), 0)
    {
      assert acts[i..][0] == Decode(tokens[i]);
      assert acts[i..][1..] == acts[i + 1..];
      LoopStep(State(), acts[i..], dev.answer, RoomGuard);
      next := ProcessToken(tokens[i]);
    }

    /**
     * The command loop of main with its final flush: the result is the
     * machine run of Session with the room check, whose device trace and
     * exit status this object now holds.
     */
    method ProcessCommands(tokens: seq<string>) returns (status: Status, consumed: nat)
      requires Valid()
      modifies this`bytecodeLen, bytecode, dev
      ensures Valid() && Run(old(State()), tokens, dev.answer) == Final(State(), status, consumed)
    {
      ghost var acts := Actions(tokens);
      ghost var goal := Run(State(), tokens, dev.answer);
      assert acts[0..] == acts;
      var i := 0;
      while i < |tokens| && bytecodeLen < MaxBytecodeLen
        invariant Valid() && 0 <= i <= |tokens|
        invariant var r := Loop(State(), acts[i..], dev.answer, RoomGuard);
                  goal == r.(consumed := r.consumed + i)
      {
        var next := ProcessNext(tokens, i, acts);
        match next
        case Abort(why) =>
          return Failed(why), i;
        case Halt =>
          break;
        case Proceed =>
          i := i + 1;
      }
      if i == |tokens| || bytecodeLen >= MaxBytecodeLen {
        LoopEnd(State(), acts[i..], dev.answer, RoomGuard);
      }
      var err := DumpBytecodes();
      status := if err.None? then Success else Failed(err.value);
      consumed := i;
    }
  }

  /**
   * main from the point where the options are parsed: no command tokens is
   * a successful no-op before the device is opened; otherwise run the loop
   * and close the device on every path.
   */
  method Execute(dev: Device, tokens: seq<string>) returns (exitCode: int)
    modifies dev
    ensures tokens == [] ==> exitCode == 0 && dev.trace == old(dev.trace)
    ensures tokens != [] ==>
              var r := Run(Machine([], old(dev.writes), old(dev.trace)), tokens, dev.answer);
              exitCode == (if r.status.Success? then 0 else 1) && dev.trace == r.m.events + [Close]
  {
    if tokens == [] {
      return 0;
    }
    var p := new Assembler(dev);
    var status, _ := p.ProcessCommands(tokens);
    dev.Close();
    exitCode := if status.Success? then 0 else 1;
  }
}

=== FILE: scanf.dfy ===
/**
 * The two `sscanf` conversions the command loop relies on, as pure functions
 * over the text that follows the command letter.
 *
 * Both follow the C library's conventions for a 32-bit `long` (the EV3 brick
 * is a 32-bit ARM): leading white space is skipped, an optional sign is
 * accepted, the longest run of digits is converted and anything after it is
 * ignored; without a single digit the conversion fails (sscanf does not
 * return 1). Overflow saturates as `strtoul`/`strtol` do.
 */
module Scanf {
  import opened Options

  const UIntMax: nat := 0xFFFF_FFFF
  const IntMax: int := 0x7FFF_FFFF
  const IntMin: int := -0x8000_0000

  /** `isspace` in the C locale. */
  predicate IsSpace(c: char) {
    c == ' ' || c == '\t' || c == '\n' || c == '\r' || c == '\U{000B}' || c == '\U{000C}'
  }

  predicate IsDigit(c: char) { '0' <= c <= '9' }

  predicate IsHexDigit(c: char) { IsDigit(c) || 'a' <= c <= 'f' || 'A' <= c <= 'F' }

  function DigitValue(c: char): (d: nat)
    requires IsDigit(c)
    ensures d < 10
  {
    c as int - '0' as int
  }

  function HexDigitValue(c: char): (d: nat)
    requires IsHexDigit(c)
    ensures d < 16
    ensures IsDigit(c) ==> d == DigitValue(c)
  {
    if IsDigit(c) then DigitValue(c)
    else if 'a' <= c <= 'f' then c as int - 'a' as int + 10
    else c as int - 'A' as int + 10
  }

  /** The text with its leading white space removed. */
  function SkipSpace(s: string): (r: string)
    ensures |r| <= |s|
    ensures r == [] || !IsSpace(r[0])
  {
    if s != [] && IsSpace(s[0]) then SkipSpace(s[1..]) else s
  }

  /** Length of the longest prefix of decimal digits. */
  function DecimalRun(s: string): (n: nat)
    ensures n <= |s|
    ensures forall i :: 0 <= i < n ==> IsDigit(s[i])
    ensures n < |s| ==> !IsDigit(s[n])
  {
    if s != [] && IsDigit(s[0]) then 1 + DecimalRun(s[1..]) else 0
  }

  /** Length of the longest prefix of hexadecimal digits. */
  function HexRun(s: string): (n: nat)
    ensures n <= |s|
    ensures forall i :: 0 <= i < n ==> IsHexDigit(s[i])
    ensures n < |s| ==> !IsHexDigit(s[n])
  {
    if s != [] && IsHexDigit(s[0]) then 1 + HexRun(s[1..]) else 0
  }

  /** The number a string of decimal digits denotes, most significant first. */
  function DecimalValue(s: string): nat
    requires forall i :: 0 <= i < |s| ==> IsDigit(s[i])
  {
    if s == [] then 0 else 10 * DecimalValue(s[..|s| - 1]) + DigitValue(s[|s| - 1])
  }

  /** The number a string of hexadecimal digits denotes, most significant first. */
  function HexValue(s: string): nat
    requires forall i :: 0 <= i < |s| ==> IsHexDigit(s[i])
  {
    if s == [] then 0 else 16 * HexValue(s[..|s| - 1]) + HexDigitValue(s[|s| - 1])
  }

  predicate HasSign(s: string) { s != [] && (s[0] == '-' || s[0] == '+') }

  /**
   * `sscanf(s, "%x", &v)` with `unsigned int v`: the hexadecimal digits may be
   * preceded by `0x` or `0X`; a minus sign negates modulo 2^32, and a
   * magnitude above 0xFFFFFFFF saturates to 0xFFFFFFFF.
   */
  function ScanHex(s: string): (r: Option<nat>)
    ensures r.Some? ==> r.value <= UIntMax
  {
    var digits := HexDigits(SignFree(SkipSpace(s)));
    var n := HexRun(digits);
    if n == 0 then None
    else
      var v := HexValue(digits[..n]);
      if v > UIntMax then Some(UIntMax)
      else if Negative(SkipSpace(s)) then Some((UIntMax + 1 - v) % (UIntMax + 1))
      else Some(v)
  }

  /**
   * `sscanf(s, "%d", &v)` with `int v`: optional sign, then decimal digits;
   * out-of-range magnitudes saturate to INT_MIN or INT_MAX.
   */
  function ScanDecimal(s: string): (r: Option<int>)
    ensures r.Some? ==> IntMin <= r.value <= IntMax
  {
    var u := SignFree(SkipSpace(s));
    var n := DecimalRun(u);
    if n == 0 then None
    else
      var v: int := if Negative(SkipSpace(s)) then -(DecimalValue(u[..n]) as int) else DecimalValue(u[..n]);
      Some(if v > IntMax then IntMax else if v < IntMin then IntMin else v)
  }

  predicate Negative(s: string) { s != [] && s[0] == '-' }

  /** The text after an optional leading sign. */
  function SignFree(s: string): (r: string)
    ensures r == if HasSign(s) then s[1..] else s
  {
    if HasSign(s) then s[1..] else s
  }

  /** The digits of a `%x` conversion: a `0x`/`0X` prefix is skipped when a digit follows it. */
  function HexDigits(u: string): string {
    if |u| >= 3 && u[0] == '0' && (u[1] == 'x' || u[1] == 'X') && IsHexDigit(u[2]) then u[2..] else u
  }

  // ---- Printing, the inverse direction: how a command's number is written ----

  function DigitChar(d: nat): (c: char)
    requires d < 10
    ensures IsDigit(c) && DigitValue(c) == d
  {
    ('0' as int + d) as char
  }

  function HexChar(d: nat): (c: char)
    requires d < 16
    ensures IsHexDigit(c) && HexDigitValue(c) == d
  {
    if d < 10 then DigitChar(d) else ('A' as int + d - 10) as char
  }

  /** The decimal text of a natural number, without leading zeros. */
  function DecimalText(n: nat): (s: string)
    ensures s != []
    ensures forall i :: 0 <= i < |s| ==> IsDigit(s[i])
  {
    if n < 10 then [DigitChar(n)] else DecimalText(n / 10) + [DigitChar(n % 10)]
  }

  /** The two hexadecimal digits of a byte value. */
  function HexText(b: nat): (s: string)
    requires b < 256
    ensures |s| == 2 && IsHexDigit(s[0]) && IsHexDigit(s[1])
  {
    [HexChar(b / 16), HexChar(b % 16)]
  }

  lemma {:induction false} DecimalValueOfText(n: nat)
    ensures DecimalValue(DecimalText(n)) == n
  {
    if n >= 10 {
      var s := DecimalText(n);
      assert s[..|s| - 1] == DecimalText(n / 10);
      DecimalValueOfText(n / 10);
    }
  }

  lemma {:induction false} DecimalRunOfDigits(s: string)
    requires forall i :: 0 <= i < |s| ==> IsDigit(s[i])
    ensures DecimalRun(s) == |s|
  {
    if s != [] {
      DecimalRunOfDigits(s[1..]);
    }
  }

  /** Reading back the decimal text of a number gives the number. */
  lemma ScanDecimalText(n: nat)
    requires n <= IntMax
    ensures ScanDecimal(DecimalText(n)) == Some(n)
  {
    var s := DecimalText(n);
    assert SkipSpace(s) == s;
    assert SignFree(s) == s;
    DecimalRunOfDigits(s);
    assert s[..|s|] == s;
    DecimalValueOfText(n);
  }

  /** Reading back the hexadecimal text of a byte gives the byte. */
  lemma ScanHexText(b: nat)
    requires b < 256
    ensures ScanHex(HexText(b)) == Some(b)
  {
    var s := HexText(b);
    assert SkipSpace(s) == s;
    assert SignFree(s) == s;
    assert HexDigits(s) == s;
    assert HexRun(s) == 2;
    assert s[..2] == s;
    assert s[..1] == [s[0]];
    assert HexValue(s) == 16 * HexValue([s[0]]) + HexDigitValue(s[1]);
  }

  /** A run of decimal digits followed by text that does not continue it. */
  lemma {:induction false} DecimalRunAppend(d: string, rest: string)
    requires forall i :: 0 <= i < |d| ==> IsDigit(d[i])
    requires rest == [] || !IsDigit(rest[0])
    ensures DecimalRun(d + rest) == |d|
  {
    if d != [] {
      assert (d + rest)[1..] == d[1..] + rest;
      DecimalRunAppend(d[1..], rest);
    } else {
      assert d + rest == rest;
    }
  }

  /** A run of hexadecimal digits followed by text that does not continue it. */
  lemma {:induction false} HexRunAppend(d: string, rest: string)
    requires forall i :: 0 <= i < |d| ==> IsHexDigit(d[i])
    requires rest == [] || !IsHexDigit(rest[0])
    ensures HexRun(d + rest) == |d|
  {
    if d != [] {
      assert (d + rest)[1..] == d[1..] + rest;
      HexRunAppend(d[1..], rest);
    } else {
      assert d + rest == rest;
    }
  }

  /** `%d` reads the digits of a number and ignores whatever text follows them. */
  lemma ScanDecimalPrefix(n: nat, rest: string)
    requires n <= IntMax && (rest == [] || !IsDigit(rest[0]))
    ensures ScanDecimal(DecimalText(n) + rest) == Some(n)
  {
    var d := DecimalText(n);
    var s := d + rest;
    assert SkipSpace(s) == s;
    assert SignFree(s) == s;
    DecimalRunAppend(d, rest);
    assert s[..|d|] == d;
    DecimalValueOfText(n);
  }

  /** `%d` negates the number after a minus sign and ignores whatever text follows its digits. */
  lemma ScanDecimalNeg(n: nat, rest: string)
    requires n <= IntMax + 1 && (rest == [] || !IsDigit(rest[0]))
    ensures ScanDecimal("-" + DecimalText(n) + rest) == Some(0 - (n as int))
  {
    var d := DecimalText(n);
    var u := d + rest;
    var s := "-" + d + rest;
    assert s == ['-'] + u;
    assert SkipSpace(s) == s && Negative(s);
    assert SignFree(s) == u;
    DecimalRunAppend(d, rest);
    assert u[..|d|] == d;
    DecimalValueOfText(n);
    assert DecimalRun(SignFree(SkipSpace(s))) == |d| > 0;
    assert DecimalValue(SignFree(SkipSpace(s))[..|d|]) == n;
  }

  /**
   * `%x` reads any run of hexadecimal digits, in either case, saturating at
   * 0xFFFFFFFF, and ignores text after it that starts with neither a
   * hexadecimal digit nor `x` or `X`.
   */
  lemma ScanHexPrefix(d: string, rest: string)
    requires d != [] && forall i :: 0 <= i < |d| ==> IsHexDigit(d[i])
    requires rest == [] || (!IsHexDigit(rest[0]) && rest[0] != 'x' && rest[0] != 'X')
    ensures ScanHex(d + rest) == Some(if HexValue(d) > UIntMax then UIntMax else HexValue(d))
  {
    var s := d + rest;
    NoPrefix(d, rest);
    HexRunAppend(d, rest);
    assert s[..|d|] == d;
    assert !Negative(s);
  }

  /** Hexadecimal digits start no sign, no white space and no `0x` prefix. */
  lemma NoPrefix(d: string, rest: string)
    requires d != [] && forall i :: 0 <= i < |d| ==> IsHexDigit(d[i])
    requires rest == [] || (!IsHexDigit(rest[0]) && rest[0] != 'x' && rest[0] != 'X')
    ensures SkipSpace(d + rest) == d + rest && SignFree(d + rest) == d + rest
    ensures HexDigits(d + rest) == d + rest
  {
    var s := d + rest;
    assert s[0] == d[0];
    if |s| >= 2 {
      assert s[1] == if |d| >= 2 then d[1] else rest[0];
    }
  }
}

=== FILE: session.dfy ===
/**
 * The run of pwmcmd over its command tokens, as a state machine on values:
 * the bytecode buffer, the number of write requests made so far and the
 * trace of what the device saw. The device's answers are an input.
 *
 * The machine is parameterised by where the buffer capacity is checked:
 * `LoopGuard` is the source as written (only at the top of each iteration),
 * `RoomGuard` also checks, just before appending, that the whole command fits.
 */
module Session {
  import opened Options
  import opened Bytecode

  /** Capacity of the bytecode buffer (MAX_BYTECODE_LEN). */
  const MaxBytecodeLen := 16

  /** What the device observes, in order. */
  datatype Event =
    | Write(bytes: seq<bv8>, reply: int)   // one write request and the count the device answered
    | Sleep(ms: int)                       // usleep(ms * 1000)
    | Close                                // close(dev_fd)

  /**
   * How the device answers its k-th write request of the given bytes: the
   * number of bytes accepted, or a negative value for an error.
   */
  type Replies = (nat, seq<bv8>) -> int

  /** Why a run fails. */
  datatype Failure =
    | Invalid(err: Error)                  // a token failed validation
    | WriteError(len: nat)                 // write returned a negative value
    | ShortWrite(len: nat, accepted: int)  // write accepted some other number of bytes

  datatype Status = Success | Failed(why: Failure)

  datatype Guard = LoopGuard | RoomGuard

  datatype Machine = Machine(pending: seq<bv8>, writes: nat, events: seq<Event>)

  datatype Flushed = Flushed(m: Machine, err: Option<Failure>)

  /** How the command loop continues after one token. */
  datatype Next = Proceed | Halt | Abort(why: Failure)

  datatype Stepped = Stepped(m: Machine, next: Next)

  /** Outcome of the whole run: final state, exit status, and how many tokens took effect. */
  datatype Final = Final(m: Machine, status: Status, consumed: nat)

  /**
   * dump_bytecodes: nothing to do on an empty buffer; otherwise exactly one
   * write request of the whole buffer, and the buffer is emptied only when
   * the device accepted every byte.
   */
  function Flush(m: Machine, answer: Replies): (r: Flushed)
    ensures m.pending == [] ==> r == Flushed(m, None)
    ensures m.pending != [] ==>
              r.m.events == m.events + [Write(m.pending, answer(m.writes, m.pending))]
              && r.m.writes == m.writes + 1
    ensures r.err.None? <==> m.pending == [] || answer(m.writes, m.pending) == |m.pending|
    ensures r.m.pending == if r.err.None? then [] else m.pending
    ensures r.err.Some? ==>
              r.err.value == if answer(m.writes, m.pending) < 0 then WriteError(|m.pending|)
                             else ShortWrite(|m.pending|, answer(m.writes, m.pending))
  {
    if m.pending == [] then Flushed(m, None)
    else
      var n := answer(m.writes, m.pending);
      var m' := m.(writes := m.writes + 1, events := m.events + [Write(m.pending, n)]);
      if n < 0 then Flushed(m', Some(WriteError(|m.pending|)))
      else if n != |m.pending| then Flushed(m', Some(ShortWrite(|m.pending|, n)))
      else Flushed(m'.(pending := []), None)
  }

  /** The effect of one decoded token on the machine (one iteration of the loop body). */
  function Step(m: Machine, a: Action, answer: Replies, g: Guard): (s: Stepped)
    ensures a.Reject? ==> s.m == m && s.next == Abort(Invalid(a.err))
    ensures a.Ignore? ==> s == Stepped(m, Proceed)
    ensures a.Emit? ==> (s.next.Halt? <==> g == RoomGuard && |m.pending| + |a.bytes| > MaxBytecodeLen)
    ensures a.Emit? && s.next.Halt? ==> s.m == m
    ensures a.Emit? && !s.next.Halt? ==> s.next.Proceed? && s.m == m.(pending := m.pending + a.bytes)
    ensures s.next.Halt? ==> a.Emit? && g == RoomGuard
    ensures a.Send? ==> s.m == Flush(m, answer).m && (s.next.Proceed? <==> Flush(m, answer).err.None?)
    ensures m.events <= s.m.events
  {
    match a
    case Emit(bytes) =>
      if g == RoomGuard && |m.pending| + |bytes| > MaxBytecodeLen then Stepped(m, Halt)
      else Stepped(m.(pending := m.pending + bytes), Proceed)
    case Send =>
      var f := Flush(m, answer);
      Stepped(f.m, if f.err.Some? then Abort(f.err.value) else Proceed)
    case Pause(ms) =>
      var f := Flush(m, answer);
      if f.err.Some? then Stepped(f.m, Abort(f.err.value))
      else Stepped(f.m.(events := f.m.events + [Sleep(ms)]), Proceed)
    case Ignore => Stepped(m, Proceed)
    case Reject(e) => Stepped(m, Abort(Invalid(e)))
  }

  /** The flush after the loop: its failure is the run's failure. */
  function Finish(m: Machine, answer: Replies, consumed: nat): (r: Final)
    ensures r.consumed == consumed && r.m == Flush(m, answer).m
    ensures r.status.Success? <==> m.pending == [] || answer(m.writes, m.pending) == |m.pending|
    ensures r.status.Success? ==> r.m.pending == []
    ensures r.status.Failed? ==> !r.status.why.Invalid?
  {
    var f := Flush(m, answer);
    Final(f.m, if f.err.None? then Success else Failed(f.err.value), consumed)
  }

  /**
   * The command loop over the decoded tokens: stop when they run out or the
   * buffer is full, then flush; a failure skips the final flush. (Decoding is
   * pure, so decoding every token up front changes nothing: a token after
   * the point where the loop stops is never looked at.)
   */
  function Loop(m: Machine, acts: seq<Action>, answer: Replies, g: Guard): (r: Final)
    ensures r.consumed <= |acts|
    ensures m.events <= r.m.events
    decreases |acts|
  {
    if acts == [] || |m.pending| >= MaxBytecodeLen then Finish(m, answer, 0)
    else
      var s := Step(m, acts[0], answer, g);
      match s.next
      case Abort(why) => Final(s.m, Failed(why), 0)
      case Halt => Finish(s.m, answer, 0)
      case Proceed =>
        var r := Loop(s.m, acts[1..], answer, g);
        r.(consumed := r.consumed + 1)
  }

  /** One iteration of the loop, as the in-place loop takes it. */
  lemma LoopStep(m: Machine, acts: seq<Action>, answer: Replies, g: Guard)
    requires acts != [] && |m.pending| < MaxBytecodeLen
    ensures var s := Step(m, acts[0], answer, g);
            var r := Loop(m, acts, answer, g);
            (s.next.Proceed? ==> r == Loop(s.m, acts[1..], answer, g).(consumed := r.consumed))
            && (s.next.Proceed? ==> r.consumed == Loop(s.m, acts[1..], answer, g).consumed + 1)
            && (s.next.Halt? ==> r == Finish(s.m, answer, 0))
            && (s.next.Abort? ==> r == Final(s.m, Failed(s.next.why), 0))
  {
  }

  /** The loop ends when the tokens run out or the buffer is full: only the final flush remains. */
  lemma LoopEnd(m: Machine, acts: seq<Action>, answer: Replies, g: Guard)
    requires acts == [] || |m.pending| >= MaxBytecodeLen
    ensures Loop(m, acts, answer, g) == Finish(m, answer, 0)
  {
  }

  /** Every token decoded, in order. */
  function Actions(toks: seq<string>): (acts: seq<Action>)
    ensures |acts| == |toks|
    ensures forall i :: 0 <= i < |toks| ==> acts[i] == Decode(toks[i])
  {
    seq(|toks|, i requires 0 <= i < |toks| => Decode(toks[i]))
  }

  /** The run of the command tokens from a machine, with the room check. */
  function Run(m: Machine, toks: seq<string>, answer: Replies): (r: Final)
    ensures r.consumed <= |toks| && m.events <= r.m.events
    ensures r.status.Success? ==> r.m.pending == []
    ensures |m.pending| <= MaxBytecodeLen && WritesFit(m.events) ==>
              |r.m.pending| <= MaxBytecodeLen && WritesFit(r.m.events)
  {
    SuccessEmptiesBuffer(m, Actions(toks), answer, RoomGuard);
    if |m.pending| <= MaxBytecodeLen && WritesFit(m.events) then
      RoomGuardWithinCapacity(m, Actions(toks), answer);
      Loop(m, Actions(toks), answer, RoomGuard)
    else
      Loop(m, Actions(toks), answer, RoomGuard)
  }

  const Initial := Machine([], 0, [])

  /** The command loop of pwmcmd as written: capacity is only checked before each token. */
  function RunAsWritten(toks: seq<string>, answer: Replies): (r: Final)
    ensures WritesFit(r.m.events) <==> r == Run(Initial, toks, answer)
  {
    AsWrittenAgrees(Initial, Actions(toks), answer);
    Loop(Initial, Actions(toks), answer, LoopGuard)
  }

  // ---- What the device receives ----

  /** The bytes of one event that the device accepted. */
  function Chunk(e: Event): seq<bv8> {
    if e.Write? && e.reply == |e.bytes| then e.bytes else []
  }

  /** Every byte the device accepted, in order. */
  function Accepted(evs: seq<Event>): seq<bv8> {
    if evs == [] then [] else Accepted(evs[..|evs| - 1]) + Chunk(evs[|evs| - 1])
  }

  /** The bytes a decoded token asks to append, if any. */
  function Bytes(a: Action): seq<bv8> {
    if a.Emit? then a.bytes else []
  }

  /** The bytes the decoded tokens ask to append, in order. */
  function Emitted(acts: seq<Action>): seq<bv8> {
    if acts == [] then [] else Bytes(acts[0]) + Emitted(acts[1..])
  }

  /** No write request was longer than the buffer. */
  predicate WritesFit(evs: seq<Event>) {
    forall i :: 0 <= i < |evs| ==> (evs[i].Write? ==> |evs[i].bytes| <= MaxBytecodeLen)
  }

  lemma AcceptedAppend(evs: seq<Event>, e: Event)
    ensures Accepted(evs + [e]) == Accepted(evs) + Chunk(e)
  {
    assert (evs + [e])[..|evs|] == evs;
  }

  /** A flush moves the buffer to the device or leaves it in place; no byte is lost or repeated. */
  lemma FlushConserves(m: Machine, answer: Replies)
    ensures var f := Flush(m, answer);
            Accepted(f.m.events) + f.m.pending == Accepted(m.events) + m.pending
  {
    if m.pending != [] {
      AcceptedAppend(m.events, Write(m.pending, answer(m.writes, m.pending)));
    }
  }

  /** One token: what is accepted plus what is buffered grows by exactly the token's bytes. */
  lemma StepConserves(m: Machine, a: Action, answer: Replies, g: Guard)
    ensures var s := Step(m, a, answer, g);
            s.next.Halt? ==> s.m == m
    ensures var s := Step(m, a, answer, g);
            !s.next.Halt? ==> Accepted(s.m.events) + s.m.pending == Accepted(m.events) + m.pending + Bytes(a)
  {
    match a
    case Emit(bytes) =>
    case Send =>
      FlushConserves(m, answer);
    case Pause(ms) =>
      PauseConserves(m, ms, answer, g);
    case Ignore =>
    case Reject(_) =>
  }

  lemma PauseConserves(m: Machine, ms: int, answer: Replies, g: Guard)
    ensures var s := Step(m, Pause(ms), answer, g);
            Accepted(s.m.events) + s.m.pending == Accepted(m.events) + m.pending
  {
    var f := Flush(m, answer);
    FlushConserves(m, answer);
    if f.err.None? {
      AcceptedAppend(f.m.events, Sleep(ms));
      assert Step(m, Pause(ms), answer, g).m == f.m.(events := f.m.events + [Sleep(ms)]);
    }
  }

  /**
   * Every run, whatever the device answers: the bytes the device accepted
   * plus those still buffered are the bytes it accepted before plus the
   * buffer before plus those of the tokens that took effect, in order.
   */
  lemma {:induction false} Conservation(m: Machine, acts: seq<Action>, answer: Replies, g: Guard)
    decreases |acts|
    ensures var r := Loop(m, acts, answer, g);
            Accepted(r.m.events) + r.m.pending == Accepted(m.events) + m.pending + Emitted(acts[..r.consumed])
  {
    if acts == [] || |m.pending| >= MaxBytecodeLen {
      FinishConserves(m, acts, answer);
    } else {
      var s := Step(m, acts[0], answer, g);
      StepConserves(m, acts[0], answer, g);
      match s.next
      case Abort(why) =>
        assert acts[..0] == [];
      case Halt =>
        FinishConserves(m, acts, answer);
      case Proceed =>
        Conservation(s.m, acts[1..], answer, g);
        ProceedConserves(m, acts, answer, g);
    }
  }

  /** The inductive step of Conservation, given the property for the rest of the run. */
  lemma ProceedConserves(m: Machine, acts: seq<Action>, answer: Replies, g: Guard)
    requires acts != [] && |m.pending| < MaxBytecodeLen
    requires Step(m, acts[0], answer, g).next.Proceed?
    requires var s := Step(m, acts[0], answer, g);
             Accepted(s.m.events) + s.m.pending == Accepted(m.events) + m.pending + Bytes(acts[0])
    requires var s := Step(m, acts[0], answer, g);
             var r' := Loop(s.m, acts[1..], answer, g);
             Accepted(r'.m.events) + r'.m.pending == Accepted(s.m.events) + s.m.pending + Emitted(acts[1..][..r'.consumed])
    ensures var r := Loop(m, acts, answer, g);
            Accepted(r.m.events) + r.m.pending == Accepted(m.events) + m.pending + Emitted(acts[..r.consumed])
  {
    var s := Step(m, acts[0], answer, g);
    var r' := Loop(s.m, acts[1..], answer, g);
    var r := Loop(m, acts, answer, g);
    assert r == r'.(consumed := r'.consumed + 1);
    EmittedFirst(acts, r'.consumed);
    Chain(Accepted(m.events) + m.pending, Bytes(acts[0]), Accepted(s.m.events) + s.m.pending,
          Emitted(acts[1..][..r'.consumed]), Accepted(r.m.events) + r.m.pending);
  }

  /** x + b = y and y + e = z give x + (b + e) = z. */
  lemma Chain<T>(x: seq<T>, b: seq<T>, y: seq<T>, e: seq<T>, z: seq<T>)
    requires y == x + b && z == y + e
    ensures z == x + (b + e)
  {
  }

  lemma FinishConserves(m: Machine, acts: seq<Action>, answer: Replies)
    ensures var r := Finish(m, answer, 0);
            Accepted(r.m.events) + r.m.pending == Accepted(m.events) + m.pending + Emitted(acts[..r.consumed])
  {
    FlushConserves(m, answer);
    assert acts[..0] == [];
  }

  lemma EmittedFirst(acts: seq<Action>, k: nat)
    requires k < |acts|
    ensures Emitted(acts[..k + 1]) == Bytes(acts[0]) + Emitted(acts[1..][..k])
  {
    assert acts[..k + 1][1..] == acts[1..][..k];
  }

  /** A successful run leaves nothing behind: the device accepted exactly the bytes of the tokens that took effect. */
  lemma SuccessDeliversEverything(acts: seq<Action>, answer: Replies, g: Guard)
    ensures var r := Loop(Initial, acts, answer, g);
            r.status.Success? ==> r.m.pending == [] && Accepted(r.m.events) == Emitted(acts[..r.consumed])
  {
    var r := Loop(Initial, acts, answer, g);
    Conservation(Initial, acts, answer, g);
    assert Accepted(Initial.events) + Initial.pending == [];
    if r.status.Success? {
      SuccessEmptiesBuffer(Initial, acts, answer, g);
      calc {
        Accepted(r.m.events);
        Accepted(r.m.events) + r.m.pending;
        Accepted(Initial.events) + Initial.pending + Emitted(acts[..r.consumed]);
        Emitted(acts[..r.consumed]);
      }
    }
  }

  lemma {:induction false} SuccessEmptiesBuffer(m: Machine, acts: seq<Action>, answer: Replies, g: Guard)
    decreases |acts|
    ensures var r := Loop(m, acts, answer, g);
            r.status.Success? ==> r.m.pending == []
  {
    if acts != [] && |m.pending| < MaxBytecodeLen {
      var s := Step(m, acts[0], answer, g);
      if s.next.Proceed? {
        SuccessEmptiesBuffer(s.m, acts[1..], answer, g);
      }
    }
  }

  /** Once the buffer holds 16 bytes no further token is looked at; the final flush still runs. */
  lemma FullBufferStops(m: Machine, acts: seq<Action>, answer: Replies, g: Guard)
    requires |m.pending| >= MaxBytecodeLen
    ensures Loop(m, acts, answer, g) == Finish(m, answer, 0)
  {
  }

  /**
   * A wait flushes first and sleeps only if the flush succeeded; the sleep is
   * the last event and no byte is appended.
   */
  lemma WaitFlushesThenSleeps(m: Machine, a: Action, answer: Replies, g: Guard)
    requires a.Pause?
    ensures var s := Step(m, a, answer, g);
            var f := Flush(m, answer);
            (s.next.Proceed? <==> f.err.None?)
            && (s.next.Proceed? ==> s.m == f.m.(events := f.m.events + [Sleep(a.ms)]))
            && (!s.next.Proceed? ==> s == Stepped(f.m, Abort(f.err.value)))
  {
  }

  // ---- The capacity defect ----

  /** With the room check, the buffer never holds more than 16 bytes and no write is longer. */
  lemma {:induction false} RoomGuardWithinCapacity(m: Machine, acts: seq<Action>, answer: Replies)
    decreases |acts|
    requires |m.pending| <= MaxBytecodeLen && WritesFit(m.events)
    ensures var r := Loop(m, acts, answer, RoomGuard);
            |r.m.pending| <= MaxBytecodeLen && WritesFit(r.m.events)
  {
    if acts == [] || |m.pending| >= MaxBytecodeLen {
      FlushFits(m, answer);
    } else {
      var s := Step(m, acts[0], answer, RoomGuard);
      StepFits(m, acts[0], answer);
      match s.next
      case Abort(_) =>
      case Halt => FlushFits(s.m, answer);
      case Proceed => RoomGuardWithinCapacity(s.m, acts[1..], answer);
    }
  }

  lemma FlushFits(m: Machine, answer: Replies)
    requires |m.pending| <= MaxBytecodeLen && WritesFit(m.events)
    ensures var f := Flush(m, answer);
            |f.m.pending| <= MaxBytecodeLen && WritesFit(f.m.events)
  {
  }

  lemma StepFits(m: Machine, a: Action, answer: Replies)
    requires |m.pending| <= MaxBytecodeLen && WritesFit(m.events)
    ensures var s := Step(m, a, answer, RoomGuard);
            |s.m.pending| <= MaxBytecodeLen && WritesFit(s.m.events)
  {
    FlushFits(m, answer);
  }

  /**
   * As written, a command that does not fit is appended anyway once the
   * buffer holds fewer than 16 bytes: the final flush then asks the device to
   * take more than 16 bytes, which were stored past the end of the array.
   */
  lemma AsWrittenOverflowsAt(m: Machine, a: Action, rest: seq<Action>, answer: Replies)
    requires |m.pending| < MaxBytecodeLen && a.Emit? && |m.pending| + |a.bytes| > MaxBytecodeLen
    ensures !WritesFit(Loop(m, [a] + rest, answer, LoopGuard).m.events)
    ensures Loop(m, [a] + rest, answer, RoomGuard) == Finish(m, answer, 0)
  {
    var acts := [a] + rest;
    assert acts[0] == a && acts[1..] == rest;
    var m' := m.(pending := m.pending + a.bytes);
    assert Loop(m', rest, answer, LoopGuard) == Finish(m', answer, 0);
    var evs := Loop(m, acts, answer, LoopGuard).m.events;
    assert evs[|evs| - 1] == Write(m'.pending, answer(m'.writes, m'.pending));
  }

  /**
   * A concrete run of the source as written that goes past the buffer:
   * fourteen `start` tokens, then `FA`, make a 17-byte write.
   */
  lemma AsWrittenOverflows(answer: Replies)
    ensures !WritesFit(RunAsWritten(OverflowTokens(), answer).m.events)
  {
    var acts := Actions(OverflowTokens());
    OverflowTokensDecoded();
    var m := Initial.(pending := seq(14, _ => 0x03 as bv8));
    StartsFill(Initial, acts, 14, answer);
    assert Initial.(pending := Initial.pending + seq(14, _ => 0x03 as bv8)) == m;
    assert acts[14..] == [Emit([0xA3, 0x01, 0x00])] + [];
    AsWrittenOverflowsAt(m, Emit([0xA3, 0x01, 0x00]), [], answer);
    assert RunAsWritten(OverflowTokens(), answer).m.events == Loop(m, acts[14..], answer, LoopGuard).m.events;
  }

  /** Fourteen `start` tokens, then `FA`. */
  function OverflowTokens(): (toks: seq<string>)
    ensures |toks| == 15
  {
    seq(14, _ => "start") + ["FA"]
  }

  lemma OverflowTokensDecoded()
    ensures var acts := Actions(OverflowTokens());
            |acts| == 15 && acts[14] == Emit([0xA3, 0x01, 0x00])
            && forall i :: 0 <= i < 14 ==> acts[i] == Emit([0x03])
  {
    var toks := OverflowTokens();
    assert Decode("start") == Emit([0x03]);
    assert Decode("FA") == Emit([0xA3, 0x01, 0x00]) by {
      assert At("FA", 0) == 'F' && At("FA", 1) == 'A' && !IsHexToken("FA");
    }
    assert toks[14] == "FA";
    assert forall i :: 0 <= i < 14 ==> toks[i] == "start";
  }

  /** One-byte `start` commands only fill the buffer. */
  lemma {:induction false} StartsFill(m: Machine, acts: seq<Action>, k: nat, answer: Replies)
    decreases k
    requires k <= |acts| && |m.pending| + k <= MaxBytecodeLen
    requires forall i :: 0 <= i < k ==> acts[i] == Emit([0x03])
    ensures Loop(m, acts, answer, LoopGuard).m.events
            == Loop(m.(pending := m.pending + seq(k, _ => 0x03 as bv8)), acts[k..], answer, LoopGuard).m.events
  {
    if k == 0 {
      assert m.(pending := m.pending + seq(k, _ => 0x03 as bv8)) == m;
      assert acts[k..] == acts;
    } else {
      var m1 := m.(pending := m.pending + [0x03]);
      assert Step(m, acts[0], answer, LoopGuard) == Stepped(m1, Proceed);
      StartsFill(m1, acts[1..], k - 1, answer);
      assert m1.pending + seq(k - 1, _ => 0x03 as bv8) == m.pending + seq(k, _ => 0x03 as bv8);
      assert acts[1..][k - 1..] == acts[k..];
    }
  }

  /**
   * The source as written agrees with the room-checked loop exactly when it
   * never asks the device to take more than 16 bytes at once, that is, when
   * it never stores a byte past the end of the buffer.
   */
  lemma {:induction false} AsWrittenAgrees(m: Machine, acts: seq<Action>, answer: Replies)
    decreases |acts|
    requires |m.pending| <= MaxBytecodeLen && WritesFit(m.events)
    ensures Loop(m, acts, answer, LoopGuard) == Loop(m, acts, answer, RoomGuard)
            <==> WritesFit(Loop(m, acts, answer, LoopGuard).m.events)
  {
    RoomGuardWithinCapacity(m, acts, answer);
    if acts != [] && |m.pending| < MaxBytecodeLen {
      var a := acts[0];
      if a.Emit? && |m.pending| + |a.bytes| > MaxBytecodeLen {
        assert acts == [a] + acts[1..];
        AsWrittenOverflowsAt(m, a, acts[1..], answer);
      } else {
        var s := Step(m, a, answer, LoopGuard);
        assert Step(m, a, answer, RoomGuard) == s;
        if s.next.Proceed? {
          StepFits(m, a, answer);
          AsWrittenAgrees(s.m, acts[1..], answer);
        }
      }
    }
  }

  // ---- A worked session ----

  /** A device that accepts every write in full. */
  function AcceptAll(): Replies {
    (k: nat, bytes: seq<bv8>) => |bytes|
  }

  /** The tokens that spell out a script of commands. */
  function Texts(cs: seq<Command>): (ts: seq<string>)
    requires forall i :: 0 <= i < |cs| ==> WellFormed(cs[i])
    ensures |ts| == |cs|
    ensures forall i :: 0 <= i < |cs| ==> ts[i] == Text(cs[i])
  {
    seq(|cs|, i requires 0 <= i < |cs| => Text(cs[i]))
  }

  /** What a script of commands means, command by command. */
  function Meanings(cs: seq<Command>): (acts: seq<Action>)
    requires forall i :: 0 <= i < |cs| ==> WellFormed(cs[i])
    ensures |acts| == |cs|
    ensures forall i :: 0 <= i < |cs| ==> acts[i] == Meaning(cs[i])
  {
    seq(|cs|, i requires 0 <= i < |cs| => Meaning(cs[i]))
  }

  /** A script written in the usage syntax decodes to its meaning, token by token. */
  lemma ScriptDecodes(cs: seq<Command>)
    requires forall i :: 0 <= i < |cs| ==> WellFormed(cs[i])
    ensures Actions(Texts(cs)) == Meanings(cs)
  {
    forall i | 0 <= i < |cs|
      ensures Actions(Texts(cs))[i] == Meanings(cs)[i]
    {
      DecodeText(cs[i]);
    }
  }

  /** `start PA30 OA W500 PA50 W200 FA stop S` */
  function ExampleCommands(): (cs: seq<Command>)
    ensures forall i :: 0 <= i < |cs| ==> WellFormed(cs[i])
  {
    [Start, Power(A, 30), On(A), Wait(500), Power(A, 50), Wait(200), Float(A), Stop, SendBuffer]
  }

  /** One loop iteration that appends bytes which fit. */
  lemma LoopEmits(m: Machine, acts: seq<Action>, answer: Replies)
    requires acts != [] && acts[0].Emit? && |m.pending| + |acts[0].bytes| <= MaxBytecodeLen
    requires |m.pending| < MaxBytecodeLen
    ensures var r := Loop(m.(pending := m.pending + acts[0].bytes), acts[1..], answer, RoomGuard);
            Loop(m, acts, answer, RoomGuard) == r.(consumed := r.consumed + 1)
  {
  }

  /** One loop iteration that flushes a buffer the device accepts, then sleeps. */
  lemma LoopPauses(m: Machine, acts: seq<Action>, answer: Replies)
    requires acts != [] && acts[0].Pause? && 0 < |m.pending| < MaxBytecodeLen
    requires answer(m.writes, m.pending) == |m.pending|
    ensures var m' := Machine([], m.writes + 1,
                              m.events + [Write(m.pending, |m.pending|), Sleep(acts[0].ms)]);
            var r := Loop(m', acts[1..], answer, RoomGuard);
            Loop(m, acts, answer, RoomGuard) == r.(consumed := r.consumed + 1)
  {
    assert m.events + [Write(m.pending, |m.pending|)] + [Sleep(acts[0].ms)]
        == m.events + [Write(m.pending, |m.pending|), Sleep(acts[0].ms)];
  }

  /** A last explicit send the device accepts, followed by the final flush of an empty buffer. */
  lemma LoopSendsLast(m: Machine, answer: Replies)
    requires 0 < |m.pending| < MaxBytecodeLen
    requires answer(m.writes, m.pending) == |m.pending|
    ensures Loop(m, [Send], answer, RoomGuard)
            == Final(Machine([], m.writes + 1, m.events + [Write(m.pending, |m.pending|)]), Success, 1)
  {
    assert [Send][1..] == [];
  }

  const ExampleWrite1 := Write([0x03, 0xA4, 0x01, 0x1E, 0xA6, 0x01], 6)
  const ExampleWrite2 := Write([0xA4, 0x01, 0x32], 3)
  const ExampleWrite3 := Write([0xA3, 0x01, 0x00, 0x02], 4)
  const ExampleDone := Machine([], 3, [ExampleWrite1, Sleep(500), ExampleWrite2, Sleep(200), ExampleWrite3])

  /** The example from its first wait on: `PA50 W200 FA stop S` after the first sleep. */
  lemma ExampleTail(m: Machine, acts: seq<Action>)
    requires m == Machine([], 1, [ExampleWrite1, Sleep(500)])
    requires acts == [Emit([0xA4, 0x01, 0x32]), Pause(200), Emit([0xA3, 0x01, 0x00]), Emit([0x02]), Send]
    ensures Loop(m, acts, AcceptAll(), RoomGuard) == Final(ExampleDone, Success, 5)
  {
    var m5 := m.(pending := [0xA4, 0x01, 0x32]);
    var m6 := Machine([], 2, [ExampleWrite1, Sleep(500), ExampleWrite2, Sleep(200)]);
    var m7 := m6.(pending := [0xA3, 0x01, 0x00]);
    var m8 := m6.(pending := [0xA3, 0x01, 0x00, 0x02]);
    assert m8.events + [Write(m8.pending, |m8.pending|)] == ExampleDone.events;
    LoopSendsLast(m8, AcceptAll());
    assert m7.pending + [0x02] == m8.pending;
    assert acts[3..][1..] == [Send];
    LoopEmits(m7, acts[3..], AcceptAll());
    assert acts[2..][1..] == acts[3..];
    assert m6.pending + [0xA3, 0x01, 0x00] == m7.pending;
    LoopEmits(m6, acts[2..], AcceptAll());
    assert acts[1..][1..] == acts[2..];
    assert m6.events == m5.events + [Write(m5.pending, |m5.pending|), Sleep(200)];
    LoopPauses(m5, acts[1..], AcceptAll());
    assert m.pending + [0xA4, 0x01, 0x32] == m5.pending;
    LoopEmits(m, acts, AcceptAll());
  }

  /** The example from its first wait on. */
  lemma ExampleFirstWait(m: Machine, acts: seq<Action>)
    requires m == Machine([0x03, 0xA4, 0x01, 0x1E, 0xA6, 0x01], 0, [])
    requires acts == [Pause(500), Emit([0xA4, 0x01, 0x32]), Pause(200), Emit([0xA3, 0x01, 0x00]),
                      Emit([0x02]), Send]
    ensures Loop(m, acts, AcceptAll(), RoomGuard) == Final(ExampleDone, Success, 6)
  {
    var m4 := Machine([], 1, [ExampleWrite1, Sleep(500)]);
    ExampleTail(m4, acts[1..]);
    assert m4.events == m.events + [Write(m.pending, |m.pending|), Sleep(500)];
    LoopPauses(m, acts, AcceptAll());
  }

  /** The example: three commands fill the buffer, then the first wait and the rest. */
  lemma ExampleLoop(m: Machine, acts: seq<Action>)
    requires m == Initial
    requires acts == [Emit([0x03]), Emit([0xA4, 0x01, 0x1E]), Emit([0xA6, 0x01]), Pause(500),
                      Emit([0xA4, 0x01, 0x32]), Pause(200), Emit([0xA3, 0x01, 0x00]), Emit([0x02]), Send]
    ensures Loop(m, acts, AcceptAll(), RoomGuard) == Final(ExampleDone, Success, 9)
  {
    var m1 := m.(pending := [0x03]);
    var m2 := m.(pending := [0x03, 0xA4, 0x01, 0x1E]);
    var m3 := m.(pending := [0x03, 0xA4, 0x01, 0x1E, 0xA6, 0x01]);
    ExampleFirstWait(m3, acts[3..]);
    assert acts[2..][1..] == acts[3..];
    assert m2.pending + [0xA6, 0x01] == m3.pending;
    LoopEmits(m2, acts[2..], AcceptAll());
    assert acts[1..][1..] == acts[2..];
    assert m1.pending + [0xA4, 0x01, 0x1E] == m2.pending;
    LoopEmits(m1, acts[1..], AcceptAll());
    assert m.pending + [0x03] == m1.pending;
    LoopEmits(m, acts, AcceptAll());
  }

  /** What the example script means, action by action. */
  lemma ExampleMeanings(cs: seq<Command>)
    requires cs == ExampleCommands()
    ensures Meanings(cs) == [Emit([0x03]), Emit([0xA4, 0x01, 0x1E]), Emit([0xA6, 0x01]), Pause(500),
                             Emit([0xA4, 0x01, 0x32]), Pause(200), Emit([0xA3, 0x01, 0x00]), Emit([0x02]), Send]
  {
  }

  /**
   * With a device that accepts everything, the script
   * `start PA30 OA W500 PA50 W200 FA stop S` makes three writes: the bytes
   * before each wait, and the rest at the explicit send; every token takes
   * effect and the final flush finds the buffer empty.
   */
  lemma ExampleSession(cs: seq<Command>)
    requires cs == ExampleCommands()
    ensures Run(Initial, Texts(cs), AcceptAll())
            == Final(Machine([], 3, [Write([0x03, 0xA4, 0x01, 0x1E, 0xA6, 0x01], 6), Sleep(500),
                                     Write([0xA4, 0x01, 0x32], 3), Sleep(200),
                                     Write([0xA3, 0x01, 0x00, 0x02], 4)]),
                     Success, 9)
  {
    ScriptDecodes(cs);
    ExampleMeanings(cs);
    ExampleLoop(Initial, Meanings(cs));
  }
}
